=== FILE: README.md ===
# Deploy guides: step validation and checkpoint store, modelled in Dafny

The deploy site walks a learner through guides. One guide, "vercel", has three
steps:

- fork a repository;
- commit to it;
- deploy it to Vercel.

The server checks each step on request. It also keeps a store of attempts at
checkpoints, meaning (guide, step) pairs. This project models that server core
and proves what it promises:

- `js.dfy` (module `Js`): the slice of JavaScript the validators rely on.
  - Parsed JSON values, truthiness and string conversion.
  - Property reads, where reading a property of `null` throws a TypeError.
  - The substring test `String.prototype.includes`.
- `github_url.dfy` (module `GithubUrl`): the pattern
  `github\.com\/([^\/]+)\/([^\/]+)`. It takes the leftmost match, with greedy
  owner and repository groups.
- `validators.dfy` (module `Validators`): `ValidationResult` and the two
  validators.
  - `BaseGuideValidator` (`Validator.Base`): no guide, no steps, "Not implemented".
  - `VercelGuideValidator` (`Validator.Vercel`): its three step checks.
  - The network is a parameter `Host`, a function from URL to fetch outcome.
    An outcome is a non-2xx response, a thrown error, or a 2xx response whose
    body reads as text and/or JSON, or throws. Each step check also returns
    the list of URLs it fetched, so "rejected before any fetch" can be stated.
- `registry.dfy` (module `Registry`): the registered validators, one Vercel
  validator.
- `api.dfy` (module `Api`): the `POST /api/guides/:guideId/validate/:step`
  handler, as a decision from (validators, guide, step, parsed body) to a
  status and a result.
- `checkpoints.dfy` (module `Checkpoints`): `CheckpointService`, a class over
  two tables (checkpoints and attempts), kept as sequences in insertion order.
  - A counter stands in for generated ids, and a tick counter for the clock.
  - Queries are inner joins filtered by user, or by user, guide and step.
  - `getInputValue` scans the user's attempts from the earliest for the first
    truthy `inputValue`.
  - `getResultMessage` scans from the latest for the first truthy `message`.

Behaviours of the code worth knowing:

- The validate route does not record its result; nothing in the modelled
  code calls `recordAttempt`.
- `validate` reads `payload.url` (and `payload.slackId`) before a step
  check's `try`. A `null` body therefore makes a known step throw, and the
  route's `catch` answers 400 "Invalid request". The step checks never throw;
  every error inside them becomes a failed result whose message is the
  Error's text, or the clause's fallback text for a thrown value that is not
  an Error.
- The validate route performs no session check. It answers 400 for an unknown
  guide, an unknown step or an unreadable body, and 200 with the validator's
  result otherwise.
- Nothing in the schema keeps one checkpoint per (guide, step).
  `getOrCreateCheckpoint` looks one up and inserts when none is found, so
  "at most one per pair" holds for sequential use only. The store invariant
  of `CheckpointService` states it under that reading.

## Model

| member | source | states |
|---|---|---|
| Js.Property | src/lib/server/api/validators/vercel.ts:17 | reading `payload.url` throws exactly when the payload is `null`; otherwise it yields the own property or nothing |
| Js.TruthyFalsyValues | src/lib/server/api/validators/vercel.ts:144 | a value is falsy exactly when it is `undefined`, `null`, `false`, `0` or `""`; every array and object is truthy |
| Js.NatToStringDecimal | src/lib/server/api/validators/vercel.ts:146 | the conversion of a non-negative number is its decimal numeral: digits only, no leading zero, and reading it back gives the number |
| Js.ToStringSpec | src/lib/server/api/validators/vercel.ts:146 | a string converts to itself, a number to its numeral (with '-' when negative), an object to "[object Object]"; the conversion of an object throws exactly when it has an own "toString" key |
| Js.ToStringArray | src/lib/server/api/validators/vercel.ts:134 | for arrays of every length: the empty array converts to "", one element as itself (`null` as ""), each further element adds "," and its own conversion; the conversion throws exactly when some element's does |
| Js.IncludesSpec | src/lib/server/api/validators/vercel.ts:57 | `includes` holds exactly when the needle occurs at some index of the string |
| Js.IncludesInfix | src/lib/server/api/validators/vercel.ts:148 | a string surrounded by any text is found by `includes` |
| GithubUrl.RunLength | src/lib/server/api/validators/vercel.ts:32 | a `[^/]+` group extends greedily to the next slash or the end of the string, and contains no slash |
| GithubUrl.MatchAtSpec | src/lib/server/api/validators/vercel.ts:32-33 | the pattern matches at position i with groups (owner, repo) iff "github.com/" starts at i, the owner is a maximal non-empty slash-free run followed by '/', and the repo is the maximal non-empty slash-free run after it |
| GithubUrl.MatchFromSpec | src/lib/server/api/validators/vercel.ts:33 | searching from i finds the first position at or after i where the pattern matches, or nothing when none does |
| GithubUrl.MatchRepoUrlLeftmost | src/lib/server/api/validators/vercel.ts:33 | `match` fails iff the pattern matches nowhere; a result is the match at the leftmost matching position |
| GithubUrl.MatchRepoUrlCanonical | src/lib/server/api/validators/vercel.ts:42 | for `<prefix>github.com/<owner>/<repo><rest>` where the prefix has no letter 'g', owner and repo are non-empty and slash-free, and rest is empty or starts with '/', the groups are exactly owner and repo |
| GithubUrl.NoLiteralNoMatch | src/lib/server/api/validators/vercel.ts:35-40 | a string without "github.com/" never matches |
| Validators.ValidateGithubReadmeComment | src/lib/server/api/validators/vercel.ts:30-74 | a non-string URL fails with the TypeError text and an unmatched URL with "Invalid GitHub repository URL", both without a fetch; otherwise only the raw README URL built from the groups is fetched; success iff the response is ok and its text contains "Orpheus X Heidi"; each failure (not ok, marker missing, thrown Error or non-Error) has its own message |
| Validators.ValidateOwnerCommit | src/lib/server/api/validators/vercel.ts:76-120 | the same URL checks; otherwise only the commits URL filtered by the owner is fetched; success iff the response is ok and its JSON is a non-empty array; each failure has its own message |
| Validators.IncludesVercelDomainSpec | src/lib/server/api/validators/vercel.ts:127 | a string URL passes iff "vercel.app" occurs in its text; an array passes iff one element is exactly the string "vercel.app", so an array holding a full deployment URL fails; any other value fails |
| Validators.CaughtSpec | src/lib/server/api/validators/vercel.ts:68-73 | a caught value always gives a failure, whose message is the Error's message for an Error and the clause's fixed text otherwise (the same for the catch clauses at vercel.ts:114-119 and vercel.ts:162-170) |
| Validators.CheckLiveDeployment | src/lib/server/api/validators/vercel.ts:134-161 | fetches only the target; success iff the response is ok and, when the Slack ID is truthy, the Slack ID converts to a string and the page contains "Created by <id>"; the success message depends on the Slack ID; not live, a Slack ID whose conversion throws (after the page is read), missing text and thrown errors each have their own message |
| Validators.ValidateVercelDeployment | src/lib/server/api/validators/vercel.ts:122-171 | a URL that is neither a string nor an array fails with the TypeError text, and one without "vercel.app" with the Vercel URL message, both without a fetch; an array whose string conversion throws fails with the TypeError text without a fetch; otherwise the URL (an array through its string form) is checked for being live |
| Validators.Validator.GuideId | src/lib/server/api/validators/base.ts:16 | the base validator's guide id is "" and the Vercel validator's (vercel.ts:7) is "vercel" |
| Validators.BaseValidatorRejectsAll | src/lib/server/api/validators/base.ts:18-27 | the base validator recognises no step and answers every step with a failure "Not implemented", fetching nothing |
| Validators.Validator.CanValidate | src/lib/server/api/validators/vercel.ts:10-12 | a step is recognised iff the validator is the Vercel one and the step is repository-fork, commit-check or deployment; the base validator recognises none (base.ts:18-20) |
| Validators.Validator.Validate | src/lib/server/api/validators/vercel.ts:14-28 | base: "Not implemented" (base.ts:22-27); unknown step: "Unknown step: <step>"; it throws iff the step is known and the payload is `null`; each known step dispatches to its check with `payload.url` (and `payload.slackId`) |
| Validators.ForkOfRepositoryUrl | src/lib/server/api/validators/vercel.ts:42-67 | for `https://github.com/<owner>/<repo>` the fork step fetches exactly that repository's raw README on `main` and succeeds iff the README contains the marker |
| Validators.NonGithubUrlRejected | src/lib/server/api/validators/vercel.ts:81-86 | a repository URL without "github.com/" fails both GitHub steps with "Invalid GitHub repository URL" and no fetch |
| Validators.DeploymentWithSlackId | src/lib/server/api/validators/vercel.ts:144-160 | a vercel.app URL whose live page contains "Created by <id>" passes the deployment step with the Slack ID message, fetching only that URL |
| Validators.SlackIdWithoutStringForm | src/lib/server/api/validators/vercel.ts:144-170 | a Slack ID that is an object with an own "toString" key makes a live deployment fail with the TypeError text after fetching the page, whatever the page says |
| Validators.ArrayUrlWithoutStringForm | src/lib/server/api/validators/vercel.ts:127-134 | an array URL holding "vercel.app" and an object with an own "toString" key fails with the TypeError text and fetches nothing |
| Registry.RegistryContents | src/lib/server/api/validators/index.ts:8-10 | exactly one validator is registered, the Vercel one, serving "vercel"; none has the base validator's empty id |
| Api.FindValidator | src/lib/server/api/index.ts:24 | the result is the first validator whose guide id equals the requested one, or nothing when none does |
| Api.HandleValidate | src/lib/server/api/index.ts:18-38 | unreadable body: 400 "Invalid request"; no validator: 400 "Invalid guide"; unrecognised step: 400 "Invalid validation step"; status 200 iff all checks pass and validation does not throw, with the validator's result and fetches; a throw gives 400 "Invalid request"; every 400 fetches nothing |
| Api.RouteOverRegistry | src/lib/server/api/index.ts:24-34 | over the registered validators the status is 200 iff the body parses to a non-null value, the guide is "vercel" and the step is one of its three, and the reply is then the Vercel validator's result; any other guide gets "Invalid guide", any other step "Invalid validation step", a `null` body "Invalid request" |
| Checkpoints.FindCheckpoint | src/lib/server/api/checkpoints/service.ts:26-28 | the result is the first stored checkpoint for (guideId, step), or nothing when none is stored |
| Checkpoints.FindCheckpointAppend | src/lib/server/api/checkpoints/service.ts:34-43 | after inserting a checkpoint for a pair that had none, lookup for that pair finds the inserted one |
| Checkpoints.MergedMetadata | src/lib/server/api/checkpoints/service.ts:49-55 | the merged metadata has the given keys plus `inputValue` and `message` when truthy; those two take the attempt's values and every other key keeps its value |
| Checkpoints.MergeMetadata | src/lib/server/api/checkpoints/service.ts:49-55 | the step-by-step merge yields `MergedMetadata` |
| Checkpoints.StoredMetadata | src/lib/server/api/checkpoints/service.ts:62 | metadata is stored as NULL iff it has no keys, and as itself otherwise |
| Checkpoints.PartnersUnique | src/lib/server/api/checkpoints/service.ts:75 | with unique checkpoint ids, the join pairs an attempt with exactly the checkpoint it references |
| Checkpoints.QueryMembership | src/lib/server/api/checkpoints/service.ts:79-89 | a row is selected iff it pairs a stored attempt with a stored checkpoint of the referenced id and passes the filter |
| Checkpoints.QueryByUserExact | src/lib/server/api/checkpoints/service.ts:70-76 | with unique checkpoint ids (the primary key) and every attempt referencing a stored checkpoint, the by-user query has one row per attempt of the user, in order, each with its checkpoint |
| Checkpoints.QueryAscending | src/lib/server/api/checkpoints/service.ts:90 | with unique checkpoint ids (the primary key) and attempts stored in creation order, query rows are in strictly ascending `createdAt` |
| Checkpoints.QueryNewCheckpoint | src/lib/server/api/checkpoints/service.ts:42 | a new checkpoint that no attempt references changes no query result |
| Checkpoints.QueryAfterAppend | src/lib/server/api/checkpoints/service.ts:66 | with unique checkpoint ids (the primary key), appending an attempt that references a stored checkpoint adds exactly its own row, when selected, at the end of every query result |
| Checkpoints.FirstInputSpec | src/lib/server/api/checkpoints/service.ts:92-98 | the scan returns the input value of the earliest row with a truthy one, and nothing iff no row has one |
| Checkpoints.LastMessageSpec | src/lib/server/api/checkpoints/service.ts:115-121 | the scan returns the message of the latest row with a truthy one, and nothing iff no row has one |
| Checkpoints.FirstInputConcat | src/lib/server/api/checkpoints/service.ts:92-98 | later rows never change an input value already found; when none was found, the later rows decide |
| Checkpoints.LastMessageConcat | src/lib/server/api/checkpoints/service.ts:115-121 | a message in the later rows takes precedence over the earlier rows |
| Checkpoints.RecordedAttemptObserved | src/lib/server/api/checkpoints/service.ts:46-122 | after recording an attempt with a message, the result message is that message; an attempt without one leaves it unchanged; an input value is found only when none was found before |
| Checkpoints.InvariantAfterAttempt | src/lib/server/api/checkpoints/service.ts:57-66 | appending an attempt with the next id and tick that references a stored checkpoint keeps the store invariant |
| Checkpoints.CheckpointService.GetOrCreateCheckpoint | src/lib/server/api/checkpoints/service.ts:25-44 | returns the stored checkpoint for the pair when there is one and changes nothing; otherwise inserts exactly one new checkpoint with a fresh id and equal created/updated times, and returns it; afterwards lookup finds the result; attempts are unchanged; creating a checkpoint changes no query result |
| Checkpoints.CheckpointService.RecordAttempt | src/lib/server/api/checkpoints/service.ts:46-68 | appends exactly one attempt with a fresh id, referencing the pair's checkpoint (created if needed), with the user, success flag and stored merged metadata; the id counter and clock advance by one per inserted row (two when a checkpoint was created); keeps the invariant; every query result gains at most this attempt's row, at its end |
| Checkpoints.CheckpointService.InsertAttempt | src/lib/server/api/checkpoints/service.ts:57-66 | appends one attempt with a fresh id and the current time, referencing the stored checkpoint; the id counter and clock each advance by one; keeps the invariant; every query gains exactly this attempt's row, when selected, at its end |
| Checkpoints.CheckpointService.GetAttemptsByUser | src/lib/server/api/checkpoints/service.ts:70-76 | returns the by-user join of the current tables: one row per attempt of the user, in insertion order, each paired with the stored checkpoint it references |
| Checkpoints.CheckpointService.GetInputValue | src/lib/server/api/checkpoints/service.ts:78-99 | returns the earliest truthy input value among the user's attempts at the pair, or nothing |
| Checkpoints.CheckpointService.GetResultMessage | src/lib/server/api/checkpoints/service.ts:101-122 | returns the latest truthy message among the user's attempts at the pair, or nothing |

## Left out

- Network I/O: `fetch`, `response.text()` and `response.json()` are not performed. Their outcomes are a parameter (`Host.fetch`) that fixes, per URL, the status class and what reading the body yields or throws. The same URL is assumed to answer the same way throughout one check.
- TypeError messages: the text of every TypeError thrown by the runtime (a property read on `null`, `match` or `includes` on a non-string) is the single parameter `Host.typeError`, not the engine's exact wording.
- JSON numbers are integers: floating-point payload values and their string conversion are not modelled.
- Js.NatToStringDecimal: JavaScript prints numbers of 1e21 and above in exponent form ("1e+21"), and integers above 2^53 lose precision. The model writes every digit of an unbounded integer, so `Created by <slackId>` differs from the source for such a numeric Slack ID.
- Strings are sequences of Unicode scalar values, whereas JavaScript strings are UTF-16 code units, and a JSON payload may carry lone surrogates. `includes` and the repository-URL pattern give the same answers on well-formed text; lone surrogates are not modelled.
- Property reads model own data properties only; inherited properties (such as `length` of a string payload) are not modelled.
- `async`/`await` is modelled as sequential evaluation; interleavings of concurrent requests are not modelled. Two concurrent `getOrCreateCheckpoint` calls for the same pair could both insert.
- The database (drizzle over SQL) is two in-memory sequences in insertion order. Rows of the unordered by-user query and ties in `orderBy(createdAt)` are taken in insertion order.
- `crypto.randomUUID()` is a counter, and `new Date()` is one tick per insert. `createdAt` and `updatedAt` of a new checkpoint receive the same tick.
- Checkpoints.MergeMetadata: when the caller's `metadata` object is given, the source adds `inputValue` and `message` to that very object, so the caller sees the change. The model merges into a copy and does not capture this aliasing.
- `jsonb` storage is taken as storing the merged map unchanged.
- Checkpoints.CheckpointService.GetResultMessage: the source reverses the result array in place and iterates it. The model scans the same rows by descending index, with the same order and result, and does not reverse a stored array.
- The Hono application plumbing is not modelled: the `GET /` greeting, the `/api/auth/**` passthrough and the serialisation by `c.json`. Neither is dependency injection (`@needle-di`).
- A request body that fails to parse as JSON is the `None` body of `Api.HandleValidate`.
- Guide completion, badges and the page routes are not part of the modelled source.

=== FILE: api.dfy ===
/**
 * The `POST /api/guides/:guideId/validate/:step` handler as a total decision
 * over the route parameters, the outcome of parsing the request body and the
 * network. Framework plumbing (building the app, `c.json`) is not modelled.
 */
module Api {
  import opened Wrappers
  import opened Js
  import opened Validators
  import opened Registry

  /** The handler's response: HTTP status, JSON body and the URLs the validator fetched. */
  datatype Reply = Reply(status: nat, body: ValidationResult, fetched: seq<string>)

  const InvalidGuide: string := "Invalid guide"
  const InvalidStep: string := "Invalid validation step"
  const InvalidRequest: string := "Invalid request"

  /** `validators.find(v => v.guideId === guideId)`. */
  function FindValidator(validators: seq<Validator>, guideId: string): (r: Option<Validator>)
    ensures r.None? <==> forall i :: 0 <= i < |validators| ==> validators[i].GuideId() != guideId
    ensures r.Some? ==>
      exists i :: 0 <= i < |validators| && validators[i] == r.value && r.value.GuideId() == guideId
        && forall j :: 0 <= j < i ==> validators[j].GuideId() != guideId
  {
    if |validators| == 0 then None
    else if validators[0].GuideId() == guideId then Some(validators[0])
    else
      var r := FindValidator(validators[1..], guideId);
      assert forall i :: 1 <= i < |validators| ==> validators[i] == validators[1..][i - 1];
      r
  }

  /**
   * The handler: parse the body, find the guide's validator, check the step,
   * then validate; anything thrown on the way becomes "Invalid request".
   */
  function HandleValidate(validators: seq<Validator>, guideId: string, step: string, body: Option<Value>, host: Host): (r: Reply)
    // An unparsable body wins over every other check.
    ensures body.None? ==> r == Reply(400, Failure(InvalidRequest), [])
    ensures body.Some? && FindValidator(validators, guideId).None? ==> r == Reply(400, Failure(InvalidGuide), [])
    ensures (body.Some? && FindValidator(validators, guideId).Some?
             && !FindValidator(validators, guideId).value.CanValidate(step)) ==>
      r == Reply(400, Failure(InvalidStep), [])
    // The validator's result is returned as it is, with the default status.
    ensures r.status == 200 <==>
      && body.Some? && FindValidator(validators, guideId).Some?
      && FindValidator(validators, guideId).value.CanValidate(step)
      && FindValidator(validators, guideId).value.Validate(step, body.value, host).Normal?
    ensures r.status == 200 ==>
      var c := FindValidator(validators, guideId).value.Validate(step, body.value, host).value;
      r.body == c.result && r.fetched == c.fetched
    // A validator that throws is caught by the handler: "Invalid request".
    ensures (body.Some? && FindValidator(validators, guideId).Some?
             && FindValidator(validators, guideId).value.CanValidate(step)
             && FindValidator(validators, guideId).value.Validate(step, body.value, host).Abrupt?) ==>
      r == Reply(400, Failure(InvalidRequest), [])
    ensures r.status != 200 ==> r.status == 400 && !r.body.success && r.fetched == []
    ensures r.status == 400 && r.body.message != InvalidGuide && r.body.message != InvalidStep ==>
      r.body.message == InvalidRequest
  {
    match body
    case None => Reply(400, Failure(InvalidRequest), [])
    case Some(payload) =>
      match FindValidator(validators, guideId)
      case None => Reply(400, Failure(InvalidGuide), [])
      case Some(v) =>
        if !v.CanValidate(step) then Reply(400, Failure(InvalidStep), [])
        else
          match v.Validate(step, payload, host)
          case Abrupt(_) => Reply(400, Failure(InvalidRequest), [])
          case Normal(c) => Reply(200, c.result, c.fetched)
  }

  /**
   * With the registered validators: only the "vercel" guide resolves, only its
   * three steps reach validation, and a `null` body reaches validation only
   * to throw, which the handler reports as "Invalid request".
   */
  lemma RouteOverRegistry(guideId: string, step: string, body: Option<Value>, host: Host)
    ensures var r := HandleValidate(Registered, guideId, step, body, host);
      && (r.status == 200 <==>
            body.Some? && !body.value.Null? && guideId == VercelGuideId && step in VercelSteps)
      && (r.status == 200 ==> r.body == Vercel.Validate(step, body.value, host).value.result)
      && (body.Some? && guideId != VercelGuideId ==> r.body == Failure(InvalidGuide))
      && (body.Some? && guideId == VercelGuideId && step !in VercelSteps ==> r.body == Failure(InvalidStep))
      && (body == Some(Null) && guideId == VercelGuideId && step in VercelSteps ==> r.body == Failure(InvalidRequest))
  {
    RegistryContents();
    assert FindValidator(Registered, guideId) == if guideId == VercelGuideId then Some(Vercel) else None;
  }
}

=== FILE: checkpoints.dfy ===
/**
 * The checkpoint store: two append-only tables, checkpoints and attempts,
 * held in memory. Identifiers come from a counter (each is fresh), and
 * timestamps from a clock that advances on every insert, so ordering by
 * `createdAt` is insertion order.
 */
module Checkpoints {
  import opened Wrappers
  import opened Js

  type Id = nat
  type Timestamp = nat
  type Metadata = map<string, Value>

  /** The (guide, step) pair a checkpoint stands for. */
  datatype CheckpointData = CheckpointData(guideId: string, step: string)

  /** The caller's description of an attempt; absent optional fields are `None`. */
  datatype AttemptData = AttemptData(
    userId: string,
    success: bool,
    metadata: Option<Metadata>,
    inputValue: Option<string>,
    message: Option<string>)

  /** A row of the `checkpoint` table. */
  datatype Checkpoint = Checkpoint(id: Id, guideId: string, step: string, createdAt: Timestamp, updatedAt: Timestamp)

  /** A row of the `checkpoint_attempt` table; `metadata` is `None` for SQL NULL. */
  datatype Attempt = Attempt(
    id: Id,
    checkpointId: Id,
    userId: string,
    success: bool,
    metadata: Option<Metadata>,
    createdAt: Timestamp)

  /** A row of the inner join of attempts with their checkpoints. */
  datatype Row = Row(attempt: Attempt, checkpoint: Checkpoint)

  const InputValueKey: string := "inputValue"
  const MessageKey: string := "message"

  // ---------------------------------------------------------------------
  // Checkpoint lookup

  predicate IsFor(c: Checkpoint, data: CheckpointData)
  {
    c.guideId == data.guideId && c.step == data.step
  }

  /** The first checkpoint, in table order, for the pair `data`. */
  function FindCheckpoint(cps: seq<Checkpoint>, data: CheckpointData): (r: Option<Checkpoint>)
    ensures r.None? <==> forall i :: 0 <= i < |cps| ==> !IsFor(cps[i], data)
    ensures r.Some? ==>
      exists i :: 0 <= i < |cps| && cps[i] == r.value && IsFor(cps[i], data)
        && forall j :: 0 <= j < i ==> !IsFor(cps[j], data)
  {
    if |cps| == 0 then None
    else if IsFor(cps[0], data) then Some(cps[0])
    else
      var r := FindCheckpoint(cps[1..], data);
      assert forall i :: 1 <= i < |cps| ==> cps[i] == cps[1..][i - 1];
      r
  }

  /** Appending a checkpoint for a pair that had none makes it the pair's checkpoint. */
  lemma {:induction false} FindCheckpointAppend(cps: seq<Checkpoint>, c: Checkpoint, data: CheckpointData)
    requires FindCheckpoint(cps, data).None? && IsFor(c, data)
    ensures FindCheckpoint(cps + [c], data) == Some(c)
  {
    if cps != [] {
      FindCheckpointAppend(cps[1..], c, data);
      assert (cps + [c])[1..] == cps[1..] + [c];
    }
  }

  // ---------------------------------------------------------------------
  // Attempt metadata

  /** An optional string argument that is truthy: present and non-empty. */
  predicate Given(s: Option<string>)
  {
    s.Some? && s.value != ""
  }

  /**
   * The metadata `recordAttempt` builds: the caller's map (or an empty one),
   * with `inputValue` and `message` set from the arguments when those are
   * non-empty strings.
   */
  function MergedMetadata(data: AttemptData): (m: Metadata)
    ensures forall k :: k in m <==>
      || (data.metadata.Some? && k in data.metadata.value)
      || (k == InputValueKey && Given(data.inputValue))
      || (k == MessageKey && Given(data.message))
    ensures Given(data.inputValue) ==> m[InputValueKey] == Str(data.inputValue.value)
    ensures Given(data.message) ==> m[MessageKey] == Str(data.message.value)
    ensures forall k :: k in m && !(k == InputValueKey && Given(data.inputValue)) && !(k == MessageKey && Given(data.message)) ==>
      data.metadata.Some? && m[k] == data.metadata.value[k]
  {
    var base := if data.metadata.Some? then data.metadata.value else map[];
    var withInput := if Given(data.inputValue) then base[InputValueKey := Str(data.inputValue.value)] else base;
    if Given(data.message) then withInput[MessageKey := Str(data.message.value)] else withInput
  }

  /**
   * The steps of `recordAttempt` that build the metadata: start from the
   * caller's map (or an empty one), then set `inputValue` and `message` in
   * place when they are given.
   */
  method MergeMetadata(data: AttemptData) returns (metadata: Metadata)
    ensures metadata == MergedMetadata(data)
  {
    metadata := if data.metadata.Some? then data.metadata.value else map[];
    if Given(data.inputValue) {
      metadata := metadata[InputValueKey := Str(data.inputValue.value)];
    }
    if Given(data.message) {
      metadata := metadata[MessageKey := Str(data.message.value)];
    }
  }

  /** What is stored: SQL NULL for a map without keys. */
  function StoredMetadata(m: Metadata): (r: Option<Metadata>)
    ensures r.None? <==> |m| == 0
    ensures r.Some? ==> r.value == m
  {
    if |m| > 0 then Some(m) else None
  }

  /** `metadata?.[key]` of a stored attempt. */
  function MetaField(a: Attempt, key: string): Option<Value>
  {
    if a.metadata.Some? && key in a.metadata.value then Some(a.metadata.value[key]) else None
  }

  function InputOf(r: Row): Option<Value>
  {
    MetaField(r.attempt, InputValueKey)
  }

  function MessageOf(r: Row): Option<Value>
  {
    MetaField(r.attempt, MessageKey)
  }

  // ---------------------------------------------------------------------
  // Queries: the inner join of attempts with checkpoints, filtered

  /** The `where` clauses of the two queries. */
  datatype Where =
    | ByUser(userId: string)
    | ByUserAndStep(userId: string, guideId: string, step: string)

  predicate Selects(w: Where, r: Row)
  {
    && r.attempt.userId == w.userId
    && (w.ByUserAndStep? ==> r.checkpoint.guideId == w.guideId && r.checkpoint.step == w.step)
  }

  /** The selected rows pairing `a` with each checkpoint whose id is its `checkpointId`, in table order. */
  function Partners(a: Attempt, cps: seq<Checkpoint>, w: Where): seq<Row>
  {
    if cps == [] then []
    else
      var c := cps[|cps| - 1];
      Partners(a, cps[..|cps| - 1], w) + (if c.id == a.checkpointId && Selects(w, Row(a, c)) then [Row(a, c)] else [])
  }

  /** The selected rows of the join, in attempt insertion order. */
  function Query(attempts: seq<Attempt>, cps: seq<Checkpoint>, w: Where): seq<Row>
  {
    if attempts == [] then []
    else Query(attempts[..|attempts| - 1], cps, w) + Partners(attempts[|attempts| - 1], cps, w)
  }

  lemma {:induction false} PartnersMembership(a: Attempt, cps: seq<Checkpoint>, w: Where, r: Row)
    ensures r in Partners(a, cps, w) <==> r.attempt == a && r.checkpoint in cps && r.checkpoint.id == a.checkpointId && Selects(w, r)
  {
    if cps != [] {
      PartnersMembership(a, cps[..|cps| - 1], w, r);
      assert cps == cps[..|cps| - 1] + [cps[|cps| - 1]];
    }
  }

  /** A row is selected exactly when it pairs a stored attempt with the checkpoint it references and passes the filter. */
  lemma {:induction false} QueryMembership(attempts: seq<Attempt>, cps: seq<Checkpoint>, w: Where, r: Row)
    ensures r in Query(attempts, cps, w) <==>
      r.attempt in attempts && r.checkpoint in cps && r.checkpoint.id == r.attempt.checkpointId && Selects(w, r)
  {
    if attempts != [] {
      var n := |attempts| - 1;
      QueryMembership(attempts[..n], cps, w, r);
      PartnersMembership(attempts[n], cps, w, r);
      assert attempts == attempts[..n] + [attempts[n]];
    }
  }

  ghost predicate UniqueIds(cps: seq<Checkpoint>)
  {
    forall i, j :: 0 <= i < j < |cps| ==> cps[i].id != cps[j].id
  }

  ghost predicate HasCheckpoint(cps: seq<Checkpoint>, id: Id)
  {
    exists j :: 0 <= j < |cps| && cps[j].id == id
  }

  lemma {:induction false} PartnersNone(a: Attempt, cps: seq<Checkpoint>, w: Where)
    requires forall j :: 0 <= j < |cps| ==> cps[j].id != a.checkpointId
    ensures Partners(a, cps, w) == []
  {
    if cps != [] {
      PartnersNone(a, cps[..|cps| - 1], w);
    }
  }

  /** With unique ids, an attempt meets exactly the checkpoint it references. */
  lemma {:induction false} PartnersUnique(a: Attempt, cps: seq<Checkpoint>, w: Where, j: nat)
    requires UniqueIds(cps)
    requires j < |cps| && cps[j].id == a.checkpointId
    ensures Partners(a, cps, w) == if Selects(w, Row(a, cps[j])) then [Row(a, cps[j])] else []
  {
    var n := |cps| - 1;
    var init, last := cps[..n], cps[n];
    assert Partners(a, cps, w) ==
      Partners(a, init, w) + (if last.id == a.checkpointId && Selects(w, Row(a, last)) then [Row(a, last)] else []);
    if j == n {
      forall k | 0 <= k < |init| ensures init[k].id != a.checkpointId {
        assert cps[k].id != cps[n].id;
      }
      PartnersNone(a, init, w);
    } else {
      assert last.id != a.checkpointId by {
        assert cps[j].id != cps[n].id;
      }
      assert UniqueIds(init) by {
        forall p, q | 0 <= p < q < |init| ensures init[p].id != init[q].id {
          assert cps[p].id != cps[q].id;
        }
      }
      PartnersUnique(a, init, w, j);
    }
  }

  /** The attempts of `userId`, in insertion order. */
  function UserAttempts(attempts: seq<Attempt>, userId: string): seq<Attempt>
  {
    if attempts == [] then []
    else
      var a := attempts[|attempts| - 1];
      UserAttempts(attempts[..|attempts| - 1], userId) + (if a.userId == userId then [a] else [])
  }

  /**
   * When every attempt references exactly one checkpoint, the user's join rows
   * are the user's attempts, each once and in order, each paired with the
   * checkpoint it references.
   */
  lemma {:induction false} QueryByUserExact(attempts: seq<Attempt>, cps: seq<Checkpoint>, userId: string)
    requires UniqueIds(cps)
    requires forall i :: 0 <= i < |attempts| ==> HasCheckpoint(cps, attempts[i].checkpointId)
    ensures var rows := Query(attempts, cps, ByUser(userId));
      && |rows| == |UserAttempts(attempts, userId)|
      && forall k :: 0 <= k < |rows| ==>
           rows[k].attempt == UserAttempts(attempts, userId)[k]
           && rows[k].checkpoint in cps && rows[k].checkpoint.id == rows[k].attempt.checkpointId
  {
    if attempts != [] {
      var n := |attempts| - 1;
      var a := attempts[n];
      QueryByUserExact(attempts[..n], cps, userId);
      assert HasCheckpoint(cps, a.checkpointId);
      var j :| 0 <= j < |cps| && cps[j].id == a.checkpointId;
      PartnersUnique(a, cps, ByUser(userId), j);
    }
  }

  /**
   * With unique checkpoint ids and attempts created at increasing times, the
   * rows of a query are in increasing `createdAt` order, so insertion order is
   * the `orderBy(createdAt)` order.
   */
  lemma {:induction false} QueryAscending(attempts: seq<Attempt>, cps: seq<Checkpoint>, w: Where)
    requires UniqueIds(cps)
    requires forall i, j :: 0 <= i < j < |attempts| ==> attempts[i].createdAt < attempts[j].createdAt
    ensures var rows := Query(attempts, cps, w);
      forall i, j :: 0 <= i < j < |rows| ==> rows[i].attempt.createdAt < rows[j].attempt.createdAt
  {
    if attempts != [] {
      var n := |attempts| - 1;
      var a := attempts[n];
      QueryAscending(attempts[..n], cps, w);
      var front := Query(attempts[..n], cps, w);
      var back := Partners(a, cps, w);
      forall i | 0 <= i < |front| ensures front[i].attempt.createdAt < a.createdAt {
        QueryMembership(attempts[..n], cps, w, front[i]);
        var k :| 0 <= k < n && attempts[..n][k] == front[i].attempt;
        assert attempts[k] == front[i].attempt;
      }
      if exists j :: 0 <= j < |cps| && cps[j].id == a.checkpointId {
        var j :| 0 <= j < |cps| && cps[j].id == a.checkpointId;
        PartnersUnique(a, cps, w, j);
      } else {
        PartnersNone(a, cps, w);
      }
      forall r | r in back ensures r.attempt == a {
        PartnersMembership(a, cps, w, r);
      }
    }
  }

  /** Adding a checkpoint that no attempt references leaves every query unchanged. */
  lemma {:induction false} QueryNewCheckpoint(attempts: seq<Attempt>, cps: seq<Checkpoint>, c: Checkpoint, w: Where)
    requires forall i :: 0 <= i < |attempts| ==> attempts[i].checkpointId != c.id
    ensures Query(attempts, cps + [c], w) == Query(attempts, cps, w)
  {
    if attempts != [] {
      var n := |attempts| - 1;
      QueryNewCheckpoint(attempts[..n], cps, c, w);
      assert (cps + [c])[..|cps|] == cps;
    }
  }

  /**
   * Appending an attempt that references the stored checkpoint `record` adds
   * exactly that attempt's row, when selected, at the end of every query.
   */
  lemma QueryAfterAppend(before: seq<Attempt>, cps: seq<Checkpoint>, a: Attempt, record: Checkpoint, w: Where)
    requires UniqueIds(cps)
    requires record in cps && a.checkpointId == record.id
    ensures Query(before + [a], cps, w) ==
      Query(before, cps, w) + (if Selects(w, Row(a, record)) then [Row(a, record)] else [])
  {
    assert (before + [a])[..|before|] == before;
    var j :| 0 <= j < |cps| && cps[j] == record;
    PartnersUnique(a, cps, w, j);
  }

  // ---------------------------------------------------------------------
  // The two ordered scans

  /** The first truthy `inputValue` of the rows, scanning from the earliest. */
  function FirstInput(rows: seq<Row>): Option<Value>
  {
    if rows == [] then None
    else if Truthy(InputOf(rows[0])) then InputOf(rows[0])
    else FirstInput(rows[1..])
  }

  /** The first truthy `message` of the rows, scanning from the latest. */
  function LastMessage(rows: seq<Row>): Option<Value>
  {
    if rows == [] then None
    else if Truthy(MessageOf(rows[|rows| - 1])) then MessageOf(rows[|rows| - 1])
    else LastMessage(rows[..|rows| - 1])
  }

  /** `FirstInput` is the input value of the earliest row that has a truthy one; `None` when no row has one. */
  lemma {:induction false} FirstInputSpec(rows: seq<Row>)
    ensures FirstInput(rows).None? <==> forall k :: 0 <= k < |rows| ==> !Truthy(InputOf(rows[k]))
    ensures FirstInput(rows).Some? ==>
      exists k :: 0 <= k < |rows| && Truthy(InputOf(rows[k])) && FirstInput(rows) == InputOf(rows[k])
        && forall j :: 0 <= j < k ==> !Truthy(InputOf(rows[j]))
  {
    if rows != [] && !Truthy(InputOf(rows[0])) {
      FirstInputSpec(rows[1..]);
      assert forall k :: 1 <= k < |rows| ==> rows[k] == rows[1..][k - 1];
      if FirstInput(rows[1..]).Some? {
        var k :| 0 <= k < |rows[1..]| && Truthy(InputOf(rows[1..][k])) && FirstInput(rows[1..]) == InputOf(rows[1..][k])
          && forall j :: 0 <= j < k ==> !Truthy(InputOf(rows[1..][j]));
        assert Truthy(InputOf(rows[k + 1]));
      }
    }
  }

  /** `LastMessage` is the message of the latest row that has a truthy one; `None` when no row has one. */
  lemma {:induction false} LastMessageSpec(rows: seq<Row>)
    ensures LastMessage(rows).None? <==> forall k :: 0 <= k < |rows| ==> !Truthy(MessageOf(rows[k]))
    ensures LastMessage(rows).Some? ==>
      exists k :: 0 <= k < |rows| && Truthy(MessageOf(rows[k])) && LastMessage(rows) == MessageOf(rows[k])
        && forall j :: k < j < |rows| ==> !Truthy(MessageOf(rows[j]))
  {
    if rows != [] && !Truthy(MessageOf(rows[|rows| - 1])) {
      var n := |rows| - 1;
      LastMessageSpec(rows[..n]);
      assert forall k :: 0 <= k < n ==> rows[k] == rows[..n][k];
    }
  }

  /** Later rows never change a found input value; with none found, the later rows decide. */
  lemma {:induction false} FirstInputConcat(rows: seq<Row>, later: seq<Row>)
    ensures FirstInput(rows + later) == if FirstInput(rows).Some? then FirstInput(rows) else FirstInput(later)
  {
    if rows == [] {
      assert rows + later == later;
    } else {
      FirstInputConcat(rows[1..], later);
      assert (rows + later)[1..] == rows[1..] + later;
    }
  }

  /** The latest message comes from the later rows when they hold one, and from the earlier rows otherwise. */
  lemma {:induction false} LastMessageConcat(rows: seq<Row>, later: seq<Row>)
    ensures LastMessage(rows + later) == if LastMessage(later).Some? then LastMessage(later) else LastMessage(rows)
  {
    if later == [] {
      assert rows + later == rows;
    } else {
      var n := |later| - 1;
      LastMessageConcat(rows, later[..n]);
      assert (rows + later)[..|rows + later| - 1] == rows + later[..n];
    }
  }

  /**
   * An attempt recorded with a non-empty message is the result message from
   * then on, and one recorded with a non-empty input value is the input value
   * when none was found before.
   */
  lemma RecordedAttemptObserved(rows: seq<Row>, data: AttemptData, a: Attempt, c: Checkpoint)
    requires a.metadata == StoredMetadata(MergedMetadata(data))
    ensures Given(data.message) ==> LastMessage(rows + [Row(a, c)]) == Some(Str(data.message.value))
    ensures !Given(data.message) && (data.metadata.None? || MessageKey !in data.metadata.value) ==>
      LastMessage(rows + [Row(a, c)]) == LastMessage(rows)
    ensures Given(data.inputValue) && FirstInput(rows).None? ==>
      FirstInput(rows + [Row(a, c)]) == Some(Str(data.inputValue.value))
    ensures FirstInput(rows).Some? ==> FirstInput(rows + [Row(a, c)]) == FirstInput(rows)
  {
    LastMessageConcat(rows, [Row(a, c)]);
    FirstInputConcat(rows, [Row(a, c)]);
    var m := MergedMetadata(data);
    if Given(data.message) {
      assert MessageKey in m;
    }
    if Given(data.inputValue) {
      assert InputValueKey in m;
    }
  }

  // ---------------------------------------------------------------------
  // The store

  /** The store's invariant: what sequential use of the service keeps true. */
  ghost predicate StoreInvariant(cps: seq<Checkpoint>, attempts: seq<Attempt>, nextId: Id, clock: Timestamp)
  {
    && UniqueIds(cps)
    && (forall i :: 0 <= i < |cps| ==> cps[i].id < nextId && cps[i].createdAt < clock && cps[i].updatedAt == cps[i].createdAt)
    // at most one checkpoint per (guideId, step): a property of sequential use only
    && (forall i, j :: 0 <= i < j < |cps| ==> !(cps[i].guideId == cps[j].guideId && cps[i].step == cps[j].step))
    && (forall i :: 0 <= i < |attempts| ==>
          && attempts[i].id < nextId && attempts[i].createdAt < clock
          && attempts[i].checkpointId < nextId && HasCheckpoint(cps, attempts[i].checkpointId))
    && (forall i, j :: 0 <= i < j < |attempts| ==>
          attempts[i].id != attempts[j].id && attempts[i].createdAt < attempts[j].createdAt)
  }

  /** Appending an attempt with the next id and tick that references a stored checkpoint keeps the invariant. */
  lemma InvariantAfterAttempt(cps: seq<Checkpoint>, attempts: seq<Attempt>, nextId: Id, clock: Timestamp, a: Attempt)
    requires StoreInvariant(cps, attempts, nextId, clock)
    requires a.id == nextId && a.createdAt == clock && HasCheckpoint(cps, a.checkpointId)
    ensures StoreInvariant(cps, attempts + [a], nextId + 1, clock + 1)
  {
  }

  class CheckpointService {
    var checkpoints: seq<Checkpoint>
    var attempts: seq<Attempt>
    /** The fresh-id supply standing for `crypto.randomUUID()`. */
    var nextId: Id
    /** The clock standing for `new Date()`; it advances on every insert. */
    var clock: Timestamp

    ghost predicate Valid()
      reads this
    {
      StoreInvariant(checkpoints, attempts, nextId, clock)
    }

    constructor ()
      ensures Valid()
      ensures checkpoints == [] && attempts == []
    {
      checkpoints := [];
      attempts := [];
      nextId := 0;
      clock := 0;
    }

    /**
     * The existing checkpoint for the pair, or a new one appended with a fresh
     * id; either way the pair's checkpoint afterwards, so a second call with
     * the same pair returns the same checkpoint.
     */
    method GetOrCreateCheckpoint(data: CheckpointData) returns (c: Checkpoint)
      requires Valid()
      modifies this
      ensures Valid()
      ensures FindCheckpoint(checkpoints, data) == Some(c)
      ensures attempts == old(attempts)
      ensures old(FindCheckpoint(checkpoints, data)).Some? ==>
        && c == old(FindCheckpoint(checkpoints, data)).value
        && checkpoints == old(checkpoints) && nextId == old(nextId) && clock == old(clock)
      ensures old(FindCheckpoint(checkpoints, data)).None? ==>
        && c == Checkpoint(old(nextId), data.guideId, data.step, old(clock), old(clock))
        && checkpoints == old(checkpoints) + [c]
        && nextId == old(nextId) + 1 && clock == old(clock) + 1
      ensures forall w :: Query(attempts, checkpoints, w) == old(Query(attempts, checkpoints, w))
    {
      var existing := FindCheckpoint(checkpoints, data);
      if existing.Some? {
        return existing.value;
      }
      c := Checkpoint(nextId, data.guideId, data.step, clock, clock);
      ghost var before := checkpoints;
      checkpoints := checkpoints + [c];
      nextId := nextId + 1;
      clock := clock + 1;
      FindCheckpointAppend(before, c, data);
      forall w ensures Query(attempts, checkpoints, w) == Query(attempts, before, w) {
        QueryNewCheckpoint(attempts, before, c, w);
      }
      forall i | 0 <= i < |attempts| ensures HasCheckpoint(checkpoints, attempts[i].checkpointId) {
        assert HasCheckpoint(before, attempts[i].checkpointId);
        var j :| 0 <= j < |before| && before[j].id == attempts[i].checkpointId;
        assert checkpoints[j] == before[j];
      }
    }

    /**
     * Resolves the pair's checkpoint and appends one attempt referencing it,
     * with the merged metadata (NULL when it has no keys). Every query gains
     * at most this one row, at its end.
     */
    method RecordAttempt(checkpointData: CheckpointData, attemptData: AttemptData) returns (a: Attempt)
      requires Valid()
      modifies this
      ensures Valid()
      ensures FindCheckpoint(checkpoints, checkpointData).Some?
      ensures a.checkpointId == FindCheckpoint(checkpoints, checkpointData).value.id
      ensures a.userId == attemptData.userId && a.success == attemptData.success
      ensures a.metadata == StoredMetadata(MergedMetadata(attemptData))
      ensures attempts == old(attempts) + [a]
      ensures forall i :: 0 <= i < |old(attempts)| ==> a.id != old(attempts)[i].id
      ensures old(FindCheckpoint(checkpoints, checkpointData)).Some? ==> checkpoints == old(checkpoints)
      ensures old(FindCheckpoint(checkpoints, checkpointData)).None? ==>
        checkpoints == old(checkpoints) + [FindCheckpoint(checkpoints, checkpointData).value]
      ensures nextId == old(nextId) + (if old(FindCheckpoint(checkpoints, checkpointData)).None? then 2 else 1)
      ensures clock == old(clock) + (if old(FindCheckpoint(checkpoints, checkpointData)).None? then 2 else 1)
      ensures forall w :: (Query(attempts, checkpoints, w) ==
        old(Query(attempts, checkpoints, w))
          + (if Selects(w, Row(a, FindCheckpoint(checkpoints, checkpointData).value))
             then [Row(a, FindCheckpoint(checkpoints, checkpointData).value)] else []))
    {
      var record := GetOrCreateCheckpoint(checkpointData);
      var metadata := MergeMetadata(attemptData);
      a := InsertAttempt(record, attemptData.userId, attemptData.success,
                         if |metadata| > 0 then Some(metadata) else None);
    }

    /**
     * `db.insert(checkpointAttempt)`: appends an attempt with a fresh id and
     * the current time that references the stored checkpoint `record`. Every
     * query gains this attempt's row, when selected, at its end.
     */
    method InsertAttempt(record: Checkpoint, userId: string, success: bool, metadata: Option<Metadata>)
      returns (a: Attempt)
      requires Valid() && record in checkpoints
      modifies this
      ensures Valid()
      ensures a == Attempt(old(nextId), record.id, userId, success, metadata, old(clock))
      ensures checkpoints == old(checkpoints) && attempts == old(attempts) + [a]
      ensures nextId == old(nextId) + 1 && clock == old(clock) + 1
      ensures forall i :: 0 <= i < |old(attempts)| ==> a.id != old(attempts)[i].id
      ensures forall w :: (Query(attempts, checkpoints, w) ==
        old(Query(attempts, checkpoints, w)) + (if Selects(w, Row(a, record)) then [Row(a, record)] else []))
    {
      a := Attempt(nextId, record.id, userId, success, metadata, clock);
      assert HasCheckpoint(checkpoints, a.checkpointId) by {
        var j :| 0 <= j < |checkpoints| && checkpoints[j] == record;
      }
      InvariantAfterAttempt(checkpoints, attempts, nextId, clock, a);
      forall w ensures Query(attempts + [a], checkpoints, w) ==
        Query(attempts, checkpoints, w) + (if Selects(w, Row(a, record)) then [Row(a, record)] else [])
      {
        QueryAfterAppend(attempts, checkpoints, a, record, w);
      }
      attempts := attempts + [a];
      nextId := nextId + 1;
      clock := clock + 1;
    }

    /**
     * The user's attempts joined with their checkpoints: one row per attempt
     * of the user, in insertion order, each with the checkpoint it references.
     */
    method GetAttemptsByUser(userId: string) returns (rows: seq<Row>)
      requires Valid()
      ensures rows == Query(attempts, checkpoints, ByUser(userId))
      ensures |rows| == |UserAttempts(attempts, userId)|
      ensures forall k :: 0 <= k < |rows| ==>
        && rows[k].attempt == UserAttempts(attempts, userId)[k]
        && rows[k].checkpoint in checkpoints && rows[k].checkpoint.id == rows[k].attempt.checkpointId
    {
      rows := Query(attempts, checkpoints, ByUser(userId));
      QueryByUserExact(attempts, checkpoints, userId);
    }

    /** The earliest truthy `inputValue` among the user's attempts at the pair, or null. */
    method GetInputValue(guideId: string, step: string, userId: string) returns (v: Option<Value>)
      ensures v == FirstInput(Query(attempts, checkpoints, ByUserAndStep(userId, guideId, step)))
    {
      var rows := Query(attempts, checkpoints, ByUserAndStep(userId, guideId, step));
      var i := 0;
      while i < |rows|
        invariant 0 <= i <= |rows|
        invariant FirstInput(rows) == FirstInput(rows[i..])
      {
        var inputValue := InputOf(rows[i]);
        if Truthy(inputValue) {
          return inputValue;
        }
        assert rows[i..][1..] == rows[i + 1..];
        i := i + 1;
      }
      return None;
    }

    /**
     * The latest truthy `message` among the user's attempts at the pair, or
     * null: the rows are visited from the latest, as the loop over the
     * reversed result does.
     */
    method GetResultMessage(guideId: string, step: string, userId: string) returns (m: Option<Value>)
      ensures m == LastMessage(Query(attempts, checkpoints, ByUserAndStep(userId, guideId, step)))
    {
      var rows := Query(attempts, checkpoints, ByUserAndStep(userId, guideId, step));
      var i := |rows|;
      assert rows[..i] == rows;
      while i > 0
        invariant 0 <= i <= |rows|
        invariant LastMessage(rows) == LastMessage(rows[..i])
      {
        i := i - 1;
        var message := MessageOf(rows[i]);
        assert rows[..i + 1][..i] == rows[..i];
        if Truthy(message) {
          return message;
        }
      }
      return None;
    }
  }
}

=== FILE: github_url.dfy ===
/**
 * The repository-URL pattern of the Vercel guide validator,
 * `/github\.com\/([^\/]+)\/([^\/]+)/`, applied with `String.prototype.match`:
 * unanchored, so the leftmost position where the pattern matches wins, and
 * both groups are greedy.
 */
module GithubUrl {
  import opened Wrappers
  import Js

  /** The literal part `github\.com\/` of the pattern. */
  const Literal: string := "github.com/"

  /** The two capture groups of a match. */
  datatype Match = Match(owner: string, repo: string)

  predicate SlashFree(s: string)
  {
    forall k :: 0 <= k < |s| ==> s[k] != '/'
  }

  /** Length of the longest run of characters other than '/' starting at index `k`. */
  function RunLength(s: string, k: nat): (n: nat)
    requires k <= |s|
    ensures k + n <= |s|
    ensures forall t :: k <= t < k + n ==> s[t] != '/'
    ensures k + n == |s| || s[k + n] == '/'
    decreases |s| - k
  {
    if k == |s| || s[k] == '/' then 0 else 1 + RunLength(s, k + 1)
  }

  /** A run with the properties of `RunLength` is the one `RunLength` finds. */
  lemma RunLengthUnique(s: string, k: nat, n: nat)
    requires k + n <= |s|
    requires forall t :: k <= t < k + n ==> s[t] != '/'
    requires k + n == |s| || s[k + n] == '/'
    ensures RunLength(s, k) == n
  {
  }

  /**
   * The pattern tried at start index `i`: the literal, then the maximal
   * non-empty run of non-'/' characters for the owner, which a '/' must
   * follow, then the maximal non-empty run of non-'/' characters for the repo.
   */
  function MatchAt(s: string, i: nat): Option<Match>
    requires i <= |s|
  {
    var o := i + |Literal|;
    if o <= |s| && s[i..o] == Literal then
      var n := RunLength(s, o);
      var slash := o + n;
      if 0 < n && slash < |s| then
        var m := RunLength(s, slash + 1);
        if 0 < m then Some(Match(s[o..slash], s[slash + 1..slash + 1 + m])) else None
      else None
    else None
  }

  /** The leftmost match at index `i` or later. */
  function MatchFrom(s: string, i: nat): Option<Match>
    requires i <= |s|
    decreases |s| - i
  {
    if MatchAt(s, i).Some? then MatchAt(s, i)
    else if i == |s| then None
    else MatchFrom(s, i + 1)
  }

  /** `repoUrl.match(urlPattern)`, reduced to its two groups; `None` is `null`. */
  function MatchRepoUrl(s: string): Option<Match>
  {
    MatchFrom(s, 0)
  }

  /**
   * Declarative reading of the pattern at start index `i`: the text there is
   * "github.com/", the owner, "/", the repo; both groups are non-empty and free
   * of '/', and the repo group cannot be extended (greediness).
   */
  ghost predicate IsMatchAt(s: string, i: int, m: Match)
  {
    var o := i + |Literal|;
    var slash := o + |m.owner|;
    var end := slash + 1 + |m.repo|;
    && 0 <= i && end <= |s|
    && s[i..o] == Literal && s[o..slash] == m.owner && s[slash] == '/' && s[slash + 1..end] == m.repo
    && m.owner != [] && m.repo != [] && SlashFree(m.owner) && SlashFree(m.repo)
    && (end == |s| || s[end] == '/')
  }

  /** `MatchAt` finds a match at `i` exactly when there is one, and it is the only one there. */
  lemma MatchAtSpec(s: string, i: nat, m: Match)
    requires i <= |s|
    ensures MatchAt(s, i) == Some(m) <==> IsMatchAt(s, i, m)
  {
    var o := i + |Literal|;
    if IsMatchAt(s, i, m) {
      var slash := o + |m.owner|;
      forall t | o <= t < slash ensures s[t] != '/' {
        assert s[t] == m.owner[t - o];
      }
      RunLengthUnique(s, o, |m.owner|);
      forall t | slash + 1 <= t < slash + 1 + |m.repo| ensures s[t] != '/' {
        assert s[t] == m.repo[t - slash - 1];
      }
      RunLengthUnique(s, slash + 1, |m.repo|);
    }
  }

  /** `MatchFrom` returns the match at the least start index at or after `i` that has one. */
  lemma {:induction false} MatchFromSpec(s: string, i: nat)
    requires i <= |s|
    ensures MatchFrom(s, i).None? <==> forall j, m :: i <= j ==> !IsMatchAt(s, j, m)
    ensures MatchFrom(s, i).Some? ==>
      exists j :: i <= j <= |s| && IsMatchAt(s, j, MatchFrom(s, i).value) &&
        forall j', m :: i <= j' < j ==> !IsMatchAt(s, j', m)
    decreases |s| - i
  {
    forall m | IsMatchAt(s, i, m) ensures MatchAt(s, i) == Some(m) { MatchAtSpec(s, i, m); }
    if MatchAt(s, i).Some? {
      MatchAtSpec(s, i, MatchAt(s, i).value);
    } else if i == |s| {
      forall j, m | i <= j ensures !IsMatchAt(s, j, m) {
        if j == i { MatchAtSpec(s, i, m); }
      }
    } else {
      MatchFromSpec(s, i + 1);
      if MatchFrom(s, i + 1).Some? {
        var j :| i + 1 <= j <= |s| && IsMatchAt(s, j, MatchFrom(s, i + 1).value) &&
          forall j', m :: i + 1 <= j' < j ==> !IsMatchAt(s, j', m);
        assert IsMatchAt(s, j, MatchFrom(s, i).value);
      }
    }
  }

  /**
   * The groups `MatchRepoUrl` returns come from the leftmost start index at
   * which the pattern matches; `null` means it matches nowhere.
   */
  lemma MatchRepoUrlLeftmost(s: string)
    ensures MatchRepoUrl(s).None? <==> forall j, m :: !IsMatchAt(s, j, m)
    ensures MatchRepoUrl(s).Some? ==>
      exists j :: IsMatchAt(s, j, MatchRepoUrl(s).value) && forall j', m :: 0 <= j' < j ==> !IsMatchAt(s, j', m)
  {
    MatchFromSpec(s, 0);
  }

  /** Start indexes without a match are skipped. */
  lemma {:induction false} MatchFromSkip(s: string, i: nat, p: nat)
    requires i <= p <= |s|
    requires forall j :: i <= j < p ==> MatchAt(s, j).None?
    ensures MatchFrom(s, i) == MatchFrom(s, p)
    decreases p - i
  {
    if i < p {
      MatchFromSkip(s, i + 1, p);
    }
  }

  /**
   * A URL made of a prefix without the letter 'g', "github.com/", an owner, "/",
   * a repo and either nothing or a path starting with '/' yields exactly that
   * owner and repo, as in "https://github.com/alice/repo".
   */
  lemma MatchRepoUrlCanonical(prefix: string, owner: string, repo: string, rest: string)
    requires forall k :: 0 <= k < |prefix| ==> prefix[k] != 'g'
    requires owner != [] && repo != [] && SlashFree(owner) && SlashFree(repo)
    requires rest == [] || rest[0] == '/'
    ensures MatchRepoUrl(prefix + Literal + owner + "/" + repo + rest) == Some(Match(owner, repo))
  {
    var s := prefix + Literal + owner + "/" + repo + rest;
    var p := |prefix|;
    var o := p + |Literal|;
    var slash := o + |owner|;
    var end := slash + 1 + |repo|;
    assert s[..p] == prefix;
    assert s[p..o] == Literal;
    assert s[o..slash] == owner;
    assert s[slash] == '/';
    assert s[slash + 1..end] == repo;
    assert end < |s| ==> s[end] == rest[0];
    assert IsMatchAt(s, p, Match(owner, repo));
    MatchAtSpec(s, p, Match(owner, repo));
    forall j | 0 <= j < p ensures MatchAt(s, j).None? {
      assert s[j] == prefix[j] != Literal[0];
    }
    MatchFromSkip(s, 0, p);
  }

  /** A URL that does not contain "github.com/" anywhere has no match. */
  lemma NoLiteralNoMatch(s: string)
    requires !Js.Includes(s, Literal)
    ensures MatchRepoUrl(s).None?
  {
    Js.IncludesSpec(s, Literal);
    forall j, m | IsMatchAt(s, j, m) ensures Js.OccursAt(s, Literal, j) {
    }
    MatchRepoUrlLeftmost(s);
  }
}

=== FILE: js.dfy ===
/**
 * The small part of the JavaScript runtime that the validators, the route and
 * the checkpoint store depend on: JSON values as produced by `JSON.parse`,
 * truthiness, string conversion, `String.prototype.includes`, property reads,
 * and thrown values.
 */
module Js {
  import opened Wrappers

  /** A value produced by `JSON.parse`; numbers are restricted to integers. */
  datatype Value =
    | Null
    | Bool(b: bool)
    | Num(n: int)
    | Str(s: string)
    | Arr(items: seq<Value>)
    | Obj(fields: map<string, Value>)

  /** What a `catch` clause receives: an `Error` instance or some other value. */
  datatype Thrown = ErrorObject(message: string) | NonError

  /** The outcome of evaluating something that may throw. */
  datatype Completion<+T> = Normal(value: T) | Abrupt(thrown: Thrown)

  /** JavaScript truthiness of a value that may be `undefined` (`None`). */
  predicate Truthy(v: Option<Value>)
  {
    match v
    case None => false
    case Some(Null) => false
    case Some(Bool(b)) => b
    case Some(Num(n)) => n != 0
    case Some(Str(s)) => s != ""
    case Some(_) => true
  }

  /**
   * The own property `key` of a parsed JSON value, for a key that is not a
   * built-in property of strings or arrays: an object yields its entry, every
   * other value yields `undefined`.
   */
  function Own(v: Value, key: string): Option<Value>
  {
    if v.Obj? && key in v.fields then Some(v.fields[key]) else None
  }

  /**
   * Evaluating `v[key]`: reading a property of `null` throws a TypeError whose
   * text is the host's; otherwise it is the own property.
   */
  function Property(v: Value, key: string, typeError: string): (r: Completion<Option<Value>>)
    ensures r.Abrupt? <==> v.Null?
    ensures r.Normal? ==> r.value == Own(v, key)
  {
    if v.Null? then Abrupt(ErrorObject(typeError)) else Normal(Own(v, key))
  }

  /** The decimal digits of a natural number. */
  function NatToString(n: nat): string
  {
    if n < 10 then ["0123456789"[n]] else NatToString(n / 10) + ["0123456789"[n % 10]]
  }

  /** Two pieces joined by ","; a piece whose conversion threw makes the join throw. */
  function Joined(left: Option<string>, right: Option<string>): Option<string>
  {
    if left.Some? && right.Some? then Some(left.value + "," + right.value) else None
  }

  /** `Array.prototype.join` with its default separator "," over converted elements. */
  function JoinWithCommas(parts: seq<Option<string>>): Option<string>
  {
    if |parts| == 0 then Some("")
    else if |parts| == 1 then parts[0]
    else Joined(parts[0], JoinWithCommas(parts[1..]))
  }

  /**
   * ECMAScript ToString of a value, as used by template literals and by
   * `fetch` on a non-string argument; `None` when the conversion throws a
   * TypeError. Arrays join their elements with "," (a `null` element
   * contributes the empty string). An object prints as "[object Object]",
   * unless it has an own "toString" key: a JSON value there is not callable,
   * the inherited `valueOf` returns the object itself, and the conversion
   * throws.
   */
  function ToString(v: Value): Option<string>
  {
    match v
    case Null => Some("null")
    case Bool(b) => Some(if b then "true" else "false")
    case Num(n) => Some(if n < 0 then "-" + NatToString(-n) else NatToString(n))
    case Str(s) => Some(s)
    case Arr(items) =>
      JoinWithCommas(seq(|items|, i requires 0 <= i < |items| =>
        if items[i].Null? then Some("") else ToString(items[i])))
    case Obj(fields) => if "toString" in fields then None else Some("[object Object]")
  }

  /** What an array element contributes to `join`. */
  function ElementString(v: Value): Option<string>
  {
    if v.Null? then Some("") else ToString(v)
  }

  /**
   * The falsy values of JavaScript that a parsed JSON value (or `undefined`)
   * can take are exactly `undefined`, `null`, `false`, `0` and `""`.
   */
  lemma TruthyFalsyValues(v: Option<Value>)
    ensures !Truthy(v) <==> v in {None, Some(Null), Some(Bool(false)), Some(Num(0)), Some(Str(""))}
  {
  }

  /** A string of decimal digits, read as a number. */
  ghost predicate IsDigits(s: string)
  {
    forall k :: 0 <= k < |s| ==> '0' <= s[k] <= '9'
  }

  ghost function DigitsValue(s: string): nat
    requires IsDigits(s)
  {
    if s == [] then 0 else 10 * DigitsValue(s[..|s| - 1]) + (s[|s| - 1] as int - '0' as int)
  }

  lemma DigitChar(d: nat)
    requires d < 10
    ensures '0' <= "0123456789"[d] <= '9' && "0123456789"[d] as int - '0' as int == d
  {
  }

  /**
   * `NatToString` writes the decimal numeral of `n`: digits only, no leading
   * zero, and reading it back gives `n`.
   */
  lemma {:induction false} NatToStringDecimal(n: nat)
    ensures IsDigits(NatToString(n)) && DigitsValue(NatToString(n)) == n
    ensures |NatToString(n)| >= 1 && (NatToString(n)[0] == '0' <==> n == 0)
  {
    DigitChar(n % 10);
    if n >= 10 {
      NatToStringDecimal(n / 10);
      var s := NatToString(n);
      assert s[..|s| - 1] == NatToString(n / 10);
    }
  }

  /**
   * String conversion of the scalar values and of objects: a string is
   * itself, a number its decimal numeral with a leading '-' when negative,
   * and an object "[object Object]", throwing exactly when it has an own
   * "toString" key.
   */
  lemma ToStringSpec(s: string, n: int, fields: map<string, Value>)
    ensures ToString(Str(s)) == Some(s)
    ensures n >= 0 ==> ToString(Num(n)) == Some(NatToString(n))
    ensures n < 0 ==> ToString(Num(n)) == Some("-" + NatToString(-n))
    ensures ToString(Obj(fields)).None? <==> "toString" in fields
    ensures ToString(Obj(fields)).Some? ==> ToString(Obj(fields)).value == "[object Object]"
  {
  }

  /** Joining one more piece onto a non-empty list of pieces. */
  lemma {:induction false} JoinWithCommasAppend(parts: seq<Option<string>>, last: Option<string>)
    requires parts != []
    ensures JoinWithCommas(parts + [last]) == Joined(JoinWithCommas(parts), last)
    decreases |parts|
  {
    if |parts| == 1 {
      assert (parts + [last])[1..] == [last];
    } else {
      assert (parts + [last])[1..] == parts[1..] + [last];
      JoinWithCommasAppend(parts[1..], last);
      var h, m := parts[0], JoinWithCommas(parts[1..]);
      if h.Some? && m.Some? && last.Some? {
        assert h.value + "," + (m.value + "," + last.value) == (h.value + "," + m.value) + "," + last.value;
      }
    }
  }

  /** A join throws exactly when one of its pieces does. */
  lemma {:induction false} JoinWithCommasThrows(parts: seq<Option<string>>)
    ensures JoinWithCommas(parts).None? <==> exists k :: 0 <= k < |parts| && parts[k].None?
    decreases |parts|
  {
    if |parts| > 1 {
      JoinWithCommasThrows(parts[1..]);
      if exists k :: 0 <= k < |parts| && parts[k].None? {
        var k :| 0 <= k < |parts| && parts[k].None?;
        if k > 0 {
          assert parts[1..][k - 1].None?;
        }
      }
      forall k | 0 < k < |parts| && parts[1..][k - 1].None? ensures parts[k].None? {
      }
    }
  }

  /**
   * Array conversion for arrays of every length: the empty array is "", one
   * element converts as that element, each further element adds "," and its
   * own conversion, and the conversion throws exactly when some element's does.
   */
  lemma ToStringArray(items: seq<Value>, x: Value)
    ensures ToString(Arr([])) == Some("")
    ensures ToString(Arr([x])) == ElementString(x)
    ensures items != [] ==> ToString(Arr(items + [x])) == Joined(ToString(Arr(items)), ElementString(x))
    ensures ToString(Arr(items)).None? <==> exists k :: 0 <= k < |items| && ElementString(items[k]).None?
  {
    var pieces := seq(|items|, i requires 0 <= i < |items| => if items[i].Null? then Some("") else ToString(items[i]));
    var more := items + [x];
    var piecesMore := seq(|more|, i requires 0 <= i < |more| => if more[i].Null? then Some("") else ToString(more[i]));
    assert piecesMore == pieces + [ElementString(x)];
    assert seq(1, i requires 0 <= i < 1 => if [x][i].Null? then Some("") else ToString([x][i])) == [ElementString(x)];
    if items != [] {
      JoinWithCommasAppend(pieces, ElementString(x));
    }
    JoinWithCommasThrows(pieces);
    assert forall k :: 0 <= k < |items| ==> pieces[k] == ElementString(items[k]);
  }

  /** `needle` occurs in `s` starting at index `i`. */
  ghost predicate OccursAt(s: string, needle: string, i: int)
  {
    0 <= i && i + |needle| <= |s| && s[i..i + |needle|] == needle
  }

  /** `s.includes(needle)` for strings: a left-to-right search for `needle`. */
  predicate Includes(s: string, needle: string)
    decreases |s|
  {
    (|needle| <= |s| && s[..|needle|] == needle) || (|s| > 0 && Includes(s[1..], needle))
  }

  /** `Includes` holds exactly when `needle` occurs somewhere in `s`. */
  lemma {:induction false} IncludesSpec(s: string, needle: string)
    ensures Includes(s, needle) <==> exists i :: OccursAt(s, needle, i)
    decreases |s|
  {
    if |needle| <= |s| && s[..|needle|] == needle {
      assert OccursAt(s, needle, 0);
    } else if |s| == 0 {
    } else {
      IncludesSpec(s[1..], needle);
      if Includes(s[1..], needle) {
        var i :| OccursAt(s[1..], needle, i);
        assert s[i + 1..i + 1 + |needle|] == s[1..][i..i + |needle|];
        assert OccursAt(s, needle, i + 1);
      }
      forall i | 0 < i && OccursAt(s, needle, i) ensures OccursAt(s[1..], needle, i - 1) {
        assert s[1..][i - 1..i - 1 + |needle|] == s[i..i + |needle|];
      }
    }
  }

  /** Every string includes itself surrounded by any text. */
  lemma {:induction false} IncludesInfix(prefix: string, needle: string, suffix: string)
    ensures Includes(prefix + needle + suffix, needle)
  {
    var s := prefix + needle + suffix;
    assert s[|prefix|..|prefix| + |needle|] == needle;
    assert OccursAt(s, needle, |prefix|);
    IncludesSpec(s, needle);
  }
}

=== FILE: registry.dfy ===
/** The validator registry: a constant list holding one Vercel guide validator. */
module Registry {
  import opened Validators

  /** `VALIDATORS`, the validators the route chooses from. */
  const Registered: seq<Validator> := [Vercel]

  /**
   * The registry holds exactly one validator, the Vercel guide's (so no two
   * entries share a guide id), and no entry has the base validator's empty id.
   */
  lemma RegistryContents()
    ensures |Registered| == 1 && Registered[0] == Vercel && Registered[0].GuideId() == "vercel"
    ensures forall i :: 0 <= i < |Registered| ==> Registered[i].GuideId() != Base.GuideId()
  {
  }
}

=== FILE: validators.dfy ===
/**
 * Guide validators: the `ValidationResult` record, the `GuideValidator`
 * capability with its `BaseGuideValidator` defaults, and the Vercel guide
 * validator with its three step checks. The network is an input: `fetch` is
 * a function from URL to outcome carried by `Host`, and each step check also
 * reports the URLs it fetched, so "before any fetch" can be stated.
 */
module Validators {
  import opened Wrappers
  import opened Js
  import opened GithubUrl

  /** A validation result: exactly a success flag and a message. */
  datatype ValidationResult = ValidationResult(success: bool, message: string)

  /** What a call of `fetch` yields, as far as the validators look at it. */
  datatype FetchOutcome =
      /** `response.ok`, with what `response.text()` and `response.json()` would give */
    | Ok(text: Completion<string>, json: Completion<Value>)
      /** a response whose status is not in the 2xx range */
    | NotOk
      /** `fetch` itself rejected */
    | Threw(thrown: Thrown)

  /** The environment of a validation: the network, and the text of the engine's TypeErrors. */
  datatype Host = Host(fetch: string -> FetchOutcome, typeError: string)

  /** A step check's result together with the URLs it fetched, in order. */
  datatype Checked = Checked(result: ValidationResult, fetched: seq<string>)

  const VercelGuideId: string := "vercel"
  const RepositoryFork: string := "repository-fork"
  const CommitCheck: string := "commit-check"
  const Deployment: string := "deployment"
  const VercelSteps: seq<string> := [RepositoryFork, CommitCheck, Deployment]

  const NotImplemented: string := "Not implemented"
  const UnknownError: string := "An unknown error occurred"
  const InvalidRepoUrl: string := "Invalid GitHub repository URL"
  const ReadmeUnavailable: string := "Could not fetch README.md. Make sure the repository exists and is public."
  const ForkMarker: string := "Orpheus X Heidi"
  const ForkConfirmed: string := "Great job! Your repository has correctly been forked."
  const ForkMismatch: string :=
    "Something is wrong with your fork. Make sure you've forked the correct repository and have not made any changes."
  const CommitsUnavailable: string := "Could not fetch commits. Make sure the repository exists and is public."
  const CommitsFound: string := "Great job! We found your commits."
  const NoCommits: string := "No commits found! Make sure you have made at least one commit to the repository."
  const VercelDomain: string := "vercel.app"
  const NotVercelUrl: string := "Please provide a valid Vercel deployment URL (should include vercel.app)"
  const NotLive: string :=
    "Your Vercel deployment does not appear to be live. Make sure the URL is correct and the site has been deployed."
  const LiveWithSlackId: string := "Great job! Your Vercel deployment is live and contains your Slack ID."
  const Live: string := "Great job! Your Vercel deployment is live and working correctly."
  const DeploymentUnknownError: string := "An unknown error occurred accessing your deployment"

  function Failure(message: string): ValidationResult
  {
    ValidationResult(false, message)
  }

  function UnknownStep(step: string): string
  {
    "Unknown step: " + step
  }

  /** The template literal `Created by ${slackId}`; `None` when converting the Slack ID throws. */
  function CreatedBy(slackId: Value): Option<string>
  {
    match ToString(slackId)
    case None => None
    case Some(id) => Some("Created by " + id)
  }

  function MissingText(expected: string): string
  {
    "Your deployment is missing the required text: \"" + expected + "\". Make sure your App.tsx file has the correct SlackID."
  }

  /** A `catch` clause of a step check: the Error's message, or the fallback text. */
  function Caught(thrown: Thrown, fallback: string): ValidationResult
  {
    Failure(if thrown.ErrorObject? then thrown.message else fallback)
  }

  function ReadmeUrl(m: Match): string
  {
    "https://raw.githubusercontent.com/" + m.owner + "/" + m.repo + "/main/README.md"
  }

  function CommitsUrl(m: Match): string
  {
    "https://api.github.com/repos/" + m.owner + "/" + m.repo + "/commits?author=" + m.owner
  }

  /** The groups of the repository pattern when `repoUrl` is a string that matches it. */
  function RepoMatch(repoUrl: Option<Value>): Option<Match>
  {
    if repoUrl.Some? && repoUrl.value.Str? then MatchRepoUrl(repoUrl.value.s) else None
  }

  /** The fetch succeeded and its text contains `needle`. */
  predicate TextIncludes(outcome: FetchOutcome, needle: string)
  {
    outcome.Ok? && outcome.text.Normal? && Includes(outcome.text.value, needle)
  }

  /** The fetch succeeded and its body is a non-empty JSON array. */
  predicate NonEmptyArray(outcome: FetchOutcome)
  {
    outcome.Ok? && outcome.json.Normal? && outcome.json.value.Arr? && |outcome.json.value.items| > 0
  }

  /** A thrown value reached the step check's catch clause. */
  predicate ThrewAfterFetch(outcome: FetchOutcome, readsText: bool, readsJson: bool, thrown: Thrown)
  {
    outcome == Threw(thrown)
    || (readsText && outcome.Ok? && outcome.text == Abrupt(thrown))
    || (readsJson && outcome.Ok? && outcome.json == Abrupt(thrown))
  }

  /**
   * The `repository-fork` step: the README of the repository named by the URL
   * must contain the fork marker.
   */
  function ValidateGithubReadmeComment(repoUrl: Option<Value>, host: Host): (r: Checked)
    // A non-string URL has no `match` method: the TypeError is caught.
    ensures !(repoUrl.Some? && repoUrl.value.Str?) ==> r == Checked(Failure(host.typeError), [])
    // A string the pattern does not match is rejected before any fetch.
    ensures repoUrl.Some? && repoUrl.value.Str? && RepoMatch(repoUrl).None? ==>
      r == Checked(Failure(InvalidRepoUrl), [])
    // Otherwise exactly the README of the captured owner and repo is fetched.
    ensures RepoMatch(repoUrl).Some? ==> r.fetched == [ReadmeUrl(RepoMatch(repoUrl).value)]
    ensures r.result.success <==>
      RepoMatch(repoUrl).Some? && TextIncludes(host.fetch(ReadmeUrl(RepoMatch(repoUrl).value)), ForkMarker)
    ensures r.result.success ==> r.result.message == ForkConfirmed
    ensures RepoMatch(repoUrl).Some? ==>
      var outcome := host.fetch(ReadmeUrl(RepoMatch(repoUrl).value));
      && (outcome.NotOk? ==> r.result == Failure(ReadmeUnavailable))
      && (outcome.Ok? && outcome.text.Normal? && !Includes(outcome.text.value, ForkMarker) ==>
            r.result == Failure(ForkMismatch))
      && (forall e :: ThrewAfterFetch(outcome, true, false, e) ==> r.result == Caught(e, UnknownError))
  {
    match repoUrl
    case Some(Str(url)) =>
      (match MatchRepoUrl(url)
      case None => Checked(Failure(InvalidRepoUrl), [])
      case Some(m) =>
        var readmeUrl := ReadmeUrl(m);
        var result :=
          match host.fetch(readmeUrl)
          case Threw(e) => Caught(e, UnknownError)
          case NotOk => Failure(ReadmeUnavailable)
          case Ok(Abrupt(e), _) => Caught(e, UnknownError)
          case Ok(Normal(content), _) =>
            if Includes(content, ForkMarker) then ValidationResult(true, ForkConfirmed)
            else Failure(ForkMismatch);
        Checked(result, [readmeUrl]))
    case _ => Checked(Caught(ErrorObject(host.typeError), UnknownError), [])
  }

  /**
   * The `commit-check` step: the owner's commit list for the repository named
   * by the URL must be a non-empty array.
   */
  function ValidateOwnerCommit(repoUrl: Option<Value>, host: Host): (r: Checked)
    ensures !(repoUrl.Some? && repoUrl.value.Str?) ==> r == Checked(Failure(host.typeError), [])
    ensures repoUrl.Some? && repoUrl.value.Str? && RepoMatch(repoUrl).None? ==>
      r == Checked(Failure(InvalidRepoUrl), [])
    ensures RepoMatch(repoUrl).Some? ==> r.fetched == [CommitsUrl(RepoMatch(repoUrl).value)]
    ensures r.result.success <==>
      RepoMatch(repoUrl).Some? && NonEmptyArray(host.fetch(CommitsUrl(RepoMatch(repoUrl).value)))
    ensures r.result.success ==> r.result.message == CommitsFound
    ensures RepoMatch(repoUrl).Some? ==>
      var outcome := host.fetch(CommitsUrl(RepoMatch(repoUrl).value));
      && (outcome.NotOk? ==> r.result == Failure(CommitsUnavailable))
      && (outcome.Ok? && outcome.json.Normal? && !NonEmptyArray(outcome) ==> r.result == Failure(NoCommits))
      && (forall e :: ThrewAfterFetch(outcome, false, true, e) ==> r.result == Caught(e, UnknownError))
  {
    match repoUrl
    case Some(Str(url)) =>
      (match MatchRepoUrl(url)
      case None => Checked(Failure(InvalidRepoUrl), [])
      case Some(m) =>
        var commitsUrl := CommitsUrl(m);
        var result :=
          match host.fetch(commitsUrl)
          case Threw(e) => Caught(e, UnknownError)
          case NotOk => Failure(CommitsUnavailable)
          case Ok(_, Abrupt(e)) => Caught(e, UnknownError)
          case Ok(_, Normal(commits)) =>
            if commits.Arr? && |commits.items| > 0 then ValidationResult(true, CommitsFound)
            else Failure(NoCommits);
        Checked(result, [commitsUrl]))
    case _ => Checked(Caught(ErrorObject(host.typeError), UnknownError), [])
  }

  /** `deployUrl.includes('vercel.app')`: a string searches its text, an array its elements. */
  function IncludesVercelDomain(deployUrl: Option<Value>): bool
  {
    match deployUrl
    case Some(Str(url)) => Includes(url, VercelDomain)
    case Some(Arr(items)) => Str(VercelDomain) in items
    case _ => false
  }

  /**
   * A string URL passes when "vercel.app" occurs somewhere in its text; an
   * array passes only when one of its elements is exactly the string
   * "vercel.app", so an array holding a full deployment URL does not.
   */
  lemma IncludesVercelDomainSpec(deployUrl: Option<Value>)
    ensures deployUrl.Some? && deployUrl.value.Str? ==>
      (IncludesVercelDomain(deployUrl) <==> exists i :: OccursAt(deployUrl.value.s, VercelDomain, i))
    ensures deployUrl.Some? && deployUrl.value.Arr? ==>
      (IncludesVercelDomain(deployUrl) <==>
         exists k :: 0 <= k < |deployUrl.value.items| && deployUrl.value.items[k] == Str(VercelDomain))
    ensures !(deployUrl.Some? && (deployUrl.value.Str? || deployUrl.value.Arr?)) ==> !IncludesVercelDomain(deployUrl)
    ensures !IncludesVercelDomain(Some(Arr([Str("https://my-app.vercel.app")])))
  {
    if deployUrl.Some? && deployUrl.value.Str? {
      IncludesSpec(deployUrl.value.s, VercelDomain);
    }
    assert Str("https://my-app.vercel.app") != Str(VercelDomain) by {
      assert |"https://my-app.vercel.app"| != |VercelDomain|;
    }
  }

  /**
   * A `catch` clause turns whatever was thrown into a failure: an `Error`
   * contributes its message, anything else the clause's fixed text.
   */
  lemma CaughtSpec(thrown: Thrown, fallback: string)
    ensures !Caught(thrown, fallback).success
    ensures thrown.ErrorObject? ==> Caught(thrown, fallback).message == thrown.message
    ensures thrown.NonError? ==> Caught(thrown, fallback).message == fallback
  {
  }

  /** The rest of the `deployment` step once the URL names a Vercel app: fetch `target` and inspect it. */
  function CheckLiveDeployment(target: string, slackId: Option<Value>, host: Host): (r: Checked)
    ensures r.fetched == [target]
    ensures r.result.success <==>
      host.fetch(target).Ok?
      && (Truthy(slackId) ==>
            CreatedBy(slackId.value).Some? && TextIncludes(host.fetch(target), CreatedBy(slackId.value).value))
    ensures r.result.success ==> r.result.message == if Truthy(slackId) then LiveWithSlackId else Live
    ensures host.fetch(target).NotOk? ==> r.result == Failure(NotLive)
    // The page is read before the expected text is built; building it may throw.
    ensures (Truthy(slackId) && host.fetch(target).Ok? && host.fetch(target).text.Normal?
             && CreatedBy(slackId.value).None?) ==>
      r.result == Failure(host.typeError)
    ensures (Truthy(slackId) && host.fetch(target).Ok? && host.fetch(target).text.Normal?
             && CreatedBy(slackId.value).Some?
             && !Includes(host.fetch(target).text.value, CreatedBy(slackId.value).value)) ==>
      r.result == Failure(MissingText(CreatedBy(slackId.value).value))
    ensures forall e :: ThrewAfterFetch(host.fetch(target), Truthy(slackId), false, e) ==>
      r.result == Caught(e, DeploymentUnknownError)
  {
    var result :=
      match host.fetch(target)
      case Threw(e) => Caught(e, DeploymentUnknownError)
      case NotOk => Failure(NotLive)
      case Ok(text, _) =>
        if Truthy(slackId) then
          match text
          case Abrupt(e) => Caught(e, DeploymentUnknownError)
          case Normal(content) =>
            match CreatedBy(slackId.value)
            case None => Caught(ErrorObject(host.typeError), DeploymentUnknownError)
            case Some(expected) =>
              if !Includes(content, expected) then Failure(MissingText(expected))
              else ValidationResult(true, LiveWithSlackId)
        else ValidationResult(true, Live);
    Checked(result, [target])
  }

  /**
   * The `deployment` step: the URL must mention vercel.app, the deployment
   * must answer with a 2xx status, and when a Slack ID is given the page must
   * contain "Created by " followed by it.
   */
  function ValidateVercelDeployment(deployUrl: Option<Value>, slackId: Option<Value>, host: Host): (r: Checked)
    // Neither a string nor an array: `includes` is not a method, the TypeError is caught.
    ensures !(deployUrl.Some? && (deployUrl.value.Str? || deployUrl.value.Arr?)) ==>
      r == Checked(Failure(host.typeError), [])
    // A URL without vercel.app is rejected before any fetch.
    ensures deployUrl.Some? && (deployUrl.value.Str? || deployUrl.value.Arr?) && !IncludesVercelDomain(deployUrl) ==>
      r == Checked(Failure(NotVercelUrl), [])
    // Otherwise the URL itself is fetched (an array through its string conversion,
    // which throws before any fetch when an element's conversion does).
    ensures IncludesVercelDomain(deployUrl) && ToString(deployUrl.value).Some? ==>
      r == CheckLiveDeployment(ToString(deployUrl.value).value, slackId, host)
    ensures IncludesVercelDomain(deployUrl) && ToString(deployUrl.value).None? ==>
      r == Checked(Failure(host.typeError), [])
  {
    match deployUrl
    case Some(Str(url)) =>
      if !Includes(url, VercelDomain) then Checked(Failure(NotVercelUrl), [])
      else CheckLiveDeployment(url, slackId, host)
    case Some(Arr(items)) =>
      if Str(VercelDomain) !in items then Checked(Failure(NotVercelUrl), [])
      else
        (match ToString(Arr(items))
         case None => Checked(Caught(ErrorObject(host.typeError), DeploymentUnknownError), [])
         case Some(target) => CheckLiveDeployment(target, slackId, host))
    case _ => Checked(Caught(ErrorObject(host.typeError), DeploymentUnknownError), [])
  }

  /**
   * The validators of the system: `Base` is `BaseGuideValidator`, `Vercel` is
   * `VercelGuideValidator`.
   */
  datatype Validator = Base | Vercel
  {
    /** The guide this validator serves. */
    function GuideId(): (id: string)
      ensures Base? <==> id == ""
      ensures Vercel? <==> id == VercelGuideId
    {
      if Base? then "" else VercelGuideId
    }

    /** Whether the validator recognises `step`; the base validator recognises none. */
    predicate CanValidate(step: string)
      ensures CanValidate(step) <==> Vercel? && (step == RepositoryFork || step == CommitCheck || step == Deployment)
    {
      Vercel? && step in VercelSteps
    }

    /**
     * `validate(step, payload)`. The payload's fields are read before the step
     * checks' `try` blocks, so a `null` payload makes a known step throw.
     */
    function Validate(step: string, payload: Value, host: Host): (r: Completion<Checked>)
      ensures Base? ==> r == Normal(Checked(Failure(NotImplemented), []))
      ensures Vercel? && !CanValidate(step) ==> r == Normal(Checked(Failure(UnknownStep(step)), []))
      ensures r.Abrupt? <==> CanValidate(step) && payload.Null?
      ensures Vercel? && !payload.Null? && step == RepositoryFork ==>
        r == Normal(ValidateGithubReadmeComment(Own(payload, "url"), host))
      ensures Vercel? && !payload.Null? && step == CommitCheck ==>
        r == Normal(ValidateOwnerCommit(Own(payload, "url"), host))
      ensures Vercel? && !payload.Null? && step == Deployment ==>
        r == Normal(ValidateVercelDeployment(Own(payload, "url"), Own(payload, "slackId"), host))
    {
      if Base? then Normal(Checked(Failure(NotImplemented), []))
      else if step == RepositoryFork then
        match Property(payload, "url", host.typeError)
        case Abrupt(e) => Abrupt(e)
        case Normal(url) => Normal(ValidateGithubReadmeComment(url, host))
      else if step == CommitCheck then
        match Property(payload, "url", host.typeError)
        case Abrupt(e) => Abrupt(e)
        case Normal(url) => Normal(ValidateOwnerCommit(url, host))
      else if step == Deployment then
        match Property(payload, "url", host.typeError)
        case Abrupt(e) => Abrupt(e)
        case Normal(url) =>
          var slackId := Property(payload, "slackId", host.typeError).value;
          Normal(ValidateVercelDeployment(url, slackId, host))
      else Normal(Checked(Failure(UnknownStep(step)), []))
    }
  }

  /** `BaseGuideValidator` recognises no step and answers any step with "Not implemented", fetching nothing. */
  lemma BaseValidatorRejectsAll(step: string, payload: Value, host: Host)
    ensures !Base.CanValidate(step)
    ensures Base.Validate(step, payload, host) == Normal(Checked(ValidationResult(false, "Not implemented"), []))
  {
  }

  /**
   * The fork check on "https://github.com/<owner>/<repo>" fetches that
   * repository's raw README and succeeds exactly when it is reachable and
   * carries the marker; otherwise the message says which check failed.
   */
  lemma ForkOfRepositoryUrl(owner: string, repo: string, host: Host)
    requires owner != [] && repo != [] && SlashFree(owner) && SlashFree(repo)
    ensures var r := Vercel.Validate(RepositoryFork, Obj(map["url" := Str("https://github.com/" + owner + "/" + repo)]), host);
      var readme := "https://raw.githubusercontent.com/" + owner + "/" + repo + "/main/README.md";
      && r.Normal? && r.value.fetched == [readme]
      && (r.value.result.success <==> TextIncludes(host.fetch(readme), ForkMarker))
      && (host.fetch(readme).Ok? && host.fetch(readme).text.Normal? && !Includes(host.fetch(readme).text.value, ForkMarker) ==>
            r.value.result == Failure(ForkMismatch))
  {
    var url := "https://github.com/" + owner + "/" + repo;
    assert url == "https://" + Literal + owner + "/" + repo + [];
    MatchRepoUrlCanonical("https://", owner, repo, []);
  }

  /** A repository URL that does not mention "github.com/" fails both GitHub checks without a fetch. */
  lemma NonGithubUrlRejected(url: string, host: Host)
    requires !Includes(url, Literal)
    ensures ValidateGithubReadmeComment(Some(Str(url)), host) == Checked(Failure(InvalidRepoUrl), [])
    ensures ValidateOwnerCommit(Some(Str(url)), host) == Checked(Failure(InvalidRepoUrl), [])
  {
    NoLiteralNoMatch(url);
  }

  /**
   * A live vercel.app deployment whose page says "Created by <slackId>"
   * passes the deployment step with the Slack ID message, fetching only the
   * deployment URL.
   */
  lemma DeploymentWithSlackId(url: string, slackId: string, page: string, host: Host)
    requires Includes(url, VercelDomain) && slackId != ""
    requires host.fetch(url).Ok? && host.fetch(url).text == Normal(page)
    requires Includes(page, "Created by " + slackId)
    ensures Vercel.Validate(Deployment, Obj(map["url" := Str(url), "slackId" := Str(slackId)]), host)
      == Normal(Checked(ValidationResult(true, LiveWithSlackId), [url]))
  {
    var payload := Obj(map["url" := Str(url), "slackId" := Str(slackId)]);
    assert Own(payload, "url") == Some(Str(url)) && Own(payload, "slackId") == Some(Str(slackId));
  }

  /**
   * A Slack ID sent as an object with its own "toString" key cannot be put
   * into the expected text: once the live page has been read, the step fails
   * with the TypeError, whatever the page says.
   */
  lemma SlackIdWithoutStringForm(payload: Value, url: string, slackId: Value, page: string, host: Host)
    requires payload.Obj? && Own(payload, "url") == Some(Str(url)) && Own(payload, "slackId") == Some(slackId)
    requires slackId.Obj? && "toString" in slackId.fields
    requires Includes(url, VercelDomain)
    requires host.fetch(url).Ok? && host.fetch(url).text == Normal(page)
    ensures Vercel.Validate(Deployment, payload, host) == Normal(Checked(Failure(host.typeError), [url]))
  {
    assert CreatedBy(slackId).None?;
  }

  /**
   * An array URL naming "vercel.app" whose other element cannot be converted
   * to a string fails with the TypeError before any fetch.
   */
  lemma ArrayUrlWithoutStringForm(host: Host)
    ensures ValidateVercelDeployment(Some(Arr([Str(VercelDomain), Obj(map["toString" := Num(1)])])), None, host)
      == Checked(Failure(host.typeError), [])
  {
    var items := [Str(VercelDomain), Obj(map["toString" := Num(1)])];
    assert items[0] == Str(VercelDomain);
    ToStringArray([Str(VercelDomain)], Obj(map["toString" := Num(1)]));
    assert [Str(VercelDomain)] + [Obj(map["toString" := Num(1)])] == items;
  }
}

=== FILE: wrappers.dfy ===
/** The optional-value datatype used throughout the model. */
module Wrappers {

  /** `None` stands for JavaScript's `undefined` / SQL `NULL` / "not found". */
  datatype Option<+T> = None | Some(value: T)
}
